=== FILE: README.md ===
# VeriGate core in Dafny

VeriGate is a human-verification widget. A page renders the widget, the widget
registers a session and shows one of three challenges (slider, click, puzzle).
When the challenge is passed, the widget mints a token: the session id, the
site key, the issue time and the marker `completed`, encrypted with AES under
a key both sides hard-code. A serverless `/verify` endpoint decrypts the token
and accepts it only if it is well formed, for the requested site, at most five
minutes old and marked completed. A timestamp that does not coerce to a number
never counts as expired. A second endpoint, `/config`, hands out a
fixed default site configuration and gates a no-op update behind an admin key.

This project models that core as immutable data and pure functions:

- `Js` (`js.dfy`) — the JavaScript values the code inspects, with truthiness,
  `===` and numeric coercion. `Obj` stands for any object or array and `Fn` for
  any function, such as a callback; neither is ever `===` to anything.
- `TokenCodec` (`token_codec.dfy`) — the payload record and the cipher as a
  pair of opaque functions `seal`/`open`. Opening a sealed payload gives its
  JSON image, in which a function-valued field reads back as undefined. The laws `RoundTrips` and
  `SealsNonEmpty` are assumed only where a lemma names them in its `requires`.
- `Verifier` (`verifier.dfy`) — `verifyToken` as a short-circuiting chain of
  tests. It is specified against `FirstFailure`, a generic "reason of the first
  failing test" over the ordered list `Checks`.
- `VerifyEndpoint` (`verify_endpoint.dfy`) — the `/verify` handler's method
  routing and status table.
- `ConfigEndpoint` (`config_endpoint.dfy`) — the `/config` handler.
- `Sessions` (`sessions.dfy`) — the widget's session map: `render`, session-id
  generation, challenge start, token generation, `completeVerification`,
  `reset` and `handleError`.
- `Challenges`, `ClickChallenge`, `SliderChallenge` — the challenge kinds and
  the random choice among them, the click selection, and the slider's drag
  logic.
- `Base36` — `Number.prototype.toString(36)`, used in session ids, with its
  inverse.
- `Protocol` (`protocol.dfy`) — the two halves together: an issued token
  verifies for its site within five minutes and is refused otherwise.

The clock (`Date.now`), `Math.random`, `navigator.userAgent`, DOM lookups
that can fail (a missing container or widget) and the cipher are parameters.

Where the code departs from the widget's evident intent, the model follows
the code:

- `completeVerification` does not look at `solved`. Every call on a registered
  session mints a new token. When the widget is still on the page it issues
  the token to a function `onSuccess` (`Sessions.CompletionIsNotGuarded`,
  `Sessions.RepeatedCompletionMintsTwice`).
- The slider's first completion replaces the challenge container's markup, but
  the drag's `mousemove` and `mouseup` handlers stay bound to the old track and
  thumb. Those now measure 0 wide, so the travel is 0 and every later move of
  the same drag completes again, with the thumb at 0, until the button is
  released. The token is computed synchronously inside the awaited call, so the
  markup is already replaced when the next move arrives
  (`SliderChallenge.CompletionRepeatsUntilRelease`,
  `SliderChallenge.ZeroTravelCompletesEveryMove`).
- The token is minted before `solved` is set. If the widget has left the page,
  the UI update throws and `solved` stays unchanged.
- `onSuccess` is tested only for truthiness. An explicitly falsy `onSuccess`
  survives the spread, so the session is solved and the token goes nowhere.
  A truthy `onSuccess` that is not a function throws when called, after
  `solved` is set, and the error reaches `onError`
  (`Sessions.SuccessCallbackDecidesDelivery`).
- A function passed as the site key is truthy and is kept. `JSON.stringify`
  then drops it from the payload, so the session's tokens are always refused
  as malformed (`Protocol.FunctionSiteKeyTokensNeverVerify`).
- A session holds only `{config, solved}`. The chosen challenge kind is not
  recorded.
- The click challenge's image bank is a fixed set of vehicles, with three
  targets.
- The rejection reasons are the code's five distinct strings. A decode failure
  and a structural failure get different messages.
- `render`'s defaults apply only when an option key is absent. The trailing
  `...options` spread keeps a key that is present with a falsy value, so an
  explicit empty site key survives. Tokens for such a session never verify
  (`Protocol.EmptySiteKeyTokensNeverVerify`).

Two consequences of the code are proved as lemmas:

- A truthy timestamp that does not coerce to a number makes the age NaN, and such a token
  never expires (`Verifier.NaNAgeNeverExpires`). The key is shipped in the
  client, so anyone can build such a token.
- The handler's `|| '验证失败'` fallback is never used, because every rejection
  carries a non-empty reason (`Verifier.RejectionReasons`, `VerifyEndpoint.Handle`).

## Model

| member | source | states |
|---|---|---|
| `Base36.Encode` | src/verigate.js:41 | the clock suffix of a session id is non-empty, made of base-36 digits, with no leading zero |
| `Base36.DecodeEncode` | src/verigate.js:41 | the base-36 text of the clock reading reads back as that reading |
| `Verifier.FirstFailure` | netlify/functions/verify.js:108-130 | the short-circuit chain yields no failure iff every test passes, and otherwise the reason of the earliest failing test |
| `Verifier.VerifyToken` | netlify/functions/verify.js:102-149 | an unreadable token is rejected as '令牌解析失败' with no payload; a readable one is accepted iff all four ordered tests pass, carrying exactly the payload's sessionId, timestamp and challenge, else rejected with the first failing test's reason |
| `Verifier.RejectionReasons` | netlify/functions/verify.js:102-149 | every rejection reason is one of five distinct, non-empty strings |
| `Verifier.FalsyFieldIsMalformed` | netlify/functions/verify.js:109-111 | a falsy or missing sessionId, siteKey or timestamp (a zero timestamp included) is rejected as '令牌格式无效' whatever else the payload says |
| `Verifier.SiteMismatchBeforeExpiry` | netlify/functions/verify.js:113-125 | a well-formed payload for another site is rejected as '站点密钥不匹配' at every clock reading, expired or not |
| `Verifier.ExpiryBoundary` | netlify/functions/verify.js:118-125 | with a numeric timestamp the token is rejected as expired iff now - timestamp > 300000; age exactly 300000 and negative ages pass |
| `Verifier.NaNAgeNeverExpires` | netlify/functions/verify.js:119-123 | a timestamp that coerces to NaN is never reported expired |
| `Verifier.NotCompletedIsLast` | netlify/functions/verify.js:127-143 | after the earlier tests pass, the token is accepted iff its challenge is 'completed', and otherwise rejected as '挑战未完成' |
| `Verifier.DecisionDependsOnPayloadOnly` | netlify/functions/verify.js:102-149 | the verifier is stateless: tokens that decode alike get the same decision |
| `VerifyEndpoint.Handle` | netlify/functions/verify.js:4-99 | OPTIONS gives 200 with an empty body; other non-POST methods 405; an unreadable body 500; a missing token 400 before a missing siteKey 400; acceptance 200 with the claims; rejection 400 with the verifier's own reason; CORS headers on every response |
| `VerifyEndpoint.OkMeansAccepted` | netlify/functions/verify.js:59-85 | a non-preflight 200 happens exactly when a POST's token and siteKey are present and the verifier accepts |
| `Challenges.Choose` | src/verigate.js:101-102 | floor(random * 3) always indexes the kind list, and each third of [0,1) picks slider, click, puzzle in turn |
| `Challenges.EveryKindReachable` | src/verigate.js:102 | every challenge kind can be drawn |
| `ConfigEndpoint.DefaultConfig` | netlify/functions/config.js:34-47 | the default configuration echoes the site key; its timeout equals the verifier's 300000 ms lifetime and its challenge list names the widget's kinds in order |
| `ConfigEndpoint.SameDefaultsForEverySite` | netlify/functions/config.js:34-47 | two sites' default configurations differ only in the echoed key |
| `ConfigEndpoint.Handle` | netlify/functions/config.js:2-109 | OPTIONS 200 with empty body; GET without siteKey 400, with one 200 and the default config; POST with an unreadable body 500, with an adminKey not strictly equal to the literal key 403, else 200 with the update message; any other method 405 |
| `ConfigEndpoint.GetDependsOnlyOnSiteKey` | netlify/functions/config.js:19-84 | nothing is stored: a GET's answer depends on its siteKey query value alone, so an accepted POST changes no later GET |
| `ConfigEndpoint.AdminGate` | netlify/functions/config.js:60-84 | a readable POST succeeds iff its adminKey is exactly 'verigate-admin-key' |
| `ClickChallenge.Without` | src/verigate.js:237-238 | deselecting keeps every other selected image and keeps the selection duplicate-free |
| `ClickChallenge.Toggle` | src/verigate.js:236-245 | a click flips exactly that image's membership, touches no other image, and leaves the button disabled iff the selection is empty |
| `ClickChallenge.AllInIsInclusion` | src/verigate.js:251-252 | the every/includes scan is set inclusion |
| `ClickChallenge.SameSetIsCorrect` | src/verigate.js:250-252 | the button's test accepts iff selection and targets are equal as sets, in any order |
| `ClickChallenge.Submit` | src/verigate.js:249-263 | a disabled button fires nothing; an enabled one solves iff the selected set equals the target set, and is a mismatch otherwise |
| `ClickChallenge.Cooldown` | src/verigate.js:258-262 | after the mismatch cooldown nothing is selected, the button is disabled and cannot submit |
| `ClickChallenge.ValidIsInvariant` | src/verigate.js:228-262 | the selection stays duplicate-free, within the grid, and the button disabled iff it is empty, through clicks and cooldowns |
| `ClickChallenge.NeverSubmitsEmpty` | src/verigate.js:245 | an empty selection can never be submitted |
| `ClickChallenge.TargetsSolveInAnyOrder` | src/verigate.js:204-255 | the targets are on the grid, and clicking the three targets once each, in any of the six orders, solves the challenge |
| `ClickChallenge.PartialSelectionMismatches` | src/verigate.js:250-257 | with the button enabled, any selection whose set differs from the targets, a strict subset included, is a mismatch |
| `ClickChallenge.TwoOfThreeTargetsMismatch` | src/verigate.js:250-257 | selecting the car and the bus without the train is a mismatch |
| `ClickChallenge.SecondClickDeselects` | src/verigate.js:237-245 | clicking an image twice returns to the initial, disabled state |
| `SliderChallenge.Clamp` | src/verigate.js:177 | the position lies in [0, maxX] (0 when the track is shorter than the thumb), equals the pointer when inside, and saturates outside |
| `SliderChallenge.MouseDown` | src/verigate.js:164-168 | mousedown starts a drag and records the grab offset so that startX + offsetLeft is the pointer |
| `SliderChallenge.MouseMove` | src/verigate.js:170-186 | outside a drag nothing happens; during one the thumb stays in [0, maxX], follows the pointer inside the track, and completion is reported iff 20x >= 19 maxX |
| `SliderChallenge.MouseUp` | src/verigate.js:188-200 | release ends the drag; a thumb short of maxX returns to 0 and one at maxX stays |
| `SliderChallenge.ZeroTravelMoveCompletes` | src/verigate.js:170-186 | on a track of zero travel, as a detached one measures, a move during a drag pins the thumb at 0 and reports completion wherever the pointer is |
| `SliderChallenge.FirstHit` | src/verigate.js:182-185 | the index of the first pointer position at or past 95% of the live travel: every earlier one is short of it, and it is n exactly when none of the first n is |
| `SliderChallenge.AfterMovesStep` | src/verigate.js:170-186 | one more mousemove, measured on the live track before any completion and on the track detached by the completion message (src/verigate.js:356-363) after one, extends the closed form by one position |
| `SliderChallenge.ReplayDrag` | src/verigate.js:170-186 | over a gesture's mousemove events, nothing completes before the first position at or past 95% of the live travel and every move from it on completes, the completion message having detached the track (src/verigate.js:356-363); the thumb is at the clamp of the last position while at most one has completed and at 0 after that; outside a drag nothing happens |
| `SliderChallenge.AfterMovesCounts` | src/verigate.js:182-185 | no completion iff no position reaches 95% of the live travel; otherwise the completions are exactly the moves from the first such position to the end |
| `SliderChallenge.DragStaysOnTrack` | src/verigate.js:174-177 | through any sequence of moves on a proper track the thumb never leaves [0, maxX], before or after the track is detached |
| `SliderChallenge.ShortDragNeverCompletes` | src/verigate.js:182-185 | a drag that never reaches 95% of the travel reports no completion, and the thumb follows the last pointer position |
| `SliderChallenge.ZeroTravelCompletesEveryMove` | src/verigate.js:174-185 | on a track of zero travel every move of a drag completes |
| `SliderChallenge.CompletionRepeatsUntilRelease` | src/verigate.js:170-190 | once a move reaches 95% of the travel, it and every later move of the drag complete, and from the second on the thumb reads 0 |
| `SliderChallenge.SliderExamples` | src/verigate.js:170-200 | on a 200 px travel, 96% completes, a release at 80% reports nothing and snaps back to 0, and a drag to 96% and back to 10% completes twice and leaves the thumb at 0 |
| `Sessions.Configure` | src/verigate.js:20-28 | siteKey 'default', theme 'light', size 'normal' and the no-op onSuccess and onError functions apply exactly when the key is absent; a supplied value, even a falsy one, wins |
| `Sessions.GenerateSessionId` | src/verigate.js:40-42 | the id starts with 'vg_', holds at most nine random characters, and ends with the clock in base 36, which decodes to the clock reading |
| `Sessions.Render` | src/verigate.js:14-37 | without a container nothing is registered; otherwise the returned 'vg_' id maps to an unsolved session with the configured options, every other session is unchanged, and a fresh id grows the map by one |
| `Sessions.StartChallenge` | src/verigate.js:97-102 | a challenge kind is chosen iff the session is registered, and it is the kind at index floor(3 * random): slider, click or puzzle for the first, second or last third of [0, 1) |
| `Sessions.GenerateToken` | src/verigate.js:379-392 | under a round-tripping codec the token opens to sessionId, siteKey, the issue time, the user agent and 'completed', with a function-valued siteKey read back as undefined because JSON drops it |
| `Sessions.CompleteVerification` | src/verigate.js:340-376 | an unknown id changes nothing; a vanished widget leaves the map unchanged and reaches `onError` iff the session's callback is truthy; otherwise only this session becomes solved, config kept, and the token minted for its site key is handed to a function `onSuccess`, withheld by a falsy one, and any other value reports to `onError` |
| `Sessions.SuccessCallbackDecidesDelivery` | src/verigate.js:366-374 | after render and completion the session is solved, and the token goes to the default onSuccess when the option is absent, is withheld when it is falsy, and a truthy non-function reports an error to onError |
| `Sessions.Reset` | src/verigate.js:437-454 | an unknown id changes nothing; otherwise the same id becomes unsolved with its config kept and every other session unchanged |
| `Sessions.HandleError` | src/verigate.js:407-416 | the error callback is called iff the id is registered and its `onError` is none of the falsy values undefined, null, false, 0, '' |
| `Sessions.RenderedSessionsReportFailures` | src/verigate.js:24-27 | a session rendered without an onError option gets the no-op default, so a failed completion reaches it; an explicitly falsy onError never does |
| `Sessions.ResetUndoesCompletion` | src/verigate.js:437-454 | completing an unsolved session and then resetting it restores the session map exactly |
| `Sessions.CompletionIsNotGuarded` | src/verigate.js:340-346 | on an already solved session completion still mints a token for the new clock reading, hands it to a function `onSuccess`, and leaves the map as it was |
| `Sessions.RepeatedCompletionMintsTwice` | src/verigate.js:379-389 | two completions at different clock readings take the same path, a failure repeating the same report, and, when they issue or withhold a token, the two tokens differ |
| `Sessions.SessionsAreIndependent` | src/verigate.js:340-366 | completing or resetting one id never changes another id's session |
| `Protocol.IssuedTokenOpens` | src/verigate.js:379-389 | the minted token is the one a function `onSuccess` receives, and it opens under the shared key to the payload's JSON image, a function site key reading back as undefined |
| `Protocol.IssuedTokenVerifies` | netlify/functions/verify.js:102-143 | a minted token with truthy id, primitive truthy site key and non-zero time is accepted for that site key at any time up to 300000 ms after issue, returning the session id, issue time and 'completed' |
| `Protocol.IssuedTokenBoundToSite` | netlify/functions/verify.js:109-116 | the same token presented for another site key is refused as a mismatch; if the session's site key is a function, the token has no site key and is refused as malformed |
| `Protocol.IssuedTokenExpires` | netlify/functions/verify.js:118-125 | more than 300000 ms after issue the token is refused as expired |
| `Protocol.EmptySiteKeyTokensNeverVerify` | src/verigate.js:20-28 | a session rendered with an explicit empty site key mints tokens that are always refused as malformed |
| `Protocol.FunctionSiteKeyTokensNeverVerify` | src/verigate.js:379-389 | a widget rendered with a function as site key mints tokens that are refused as malformed for every presented site key |
| `Protocol.RenderSolveVerify` | netlify/functions/verify.js:35-75 | render for a non-empty site key, complete, and post the minted token within five minutes: the endpoint answers 200 with the session id, issue time and 'completed'; a function or absent onSuccess receives that token |
| `Protocol.DefaultSiteKeyVerifies` | src/verigate.js:21 | with no site key option, the token handed to the default onSuccess verifies for the key 'default' |

## Left out

- AES encryption and decryption (a foreign library) are the opaque `seal`/`open` pair. That decrypting under a different key fails cannot be stated without the cipher.
- `JSON.parse` of request bodies is abstracted into `RequestBody`. `Unparsable` covers a body that fails to parse and one whose JSON is `null`.
- DOM markup, CSS classes, status texts, `createWidget`, `createInitialChallenge`, `showError` and `bindEvents` are UI only. Only the two DOM lookups that decide behaviour are kept, as booleans: the render container and the widget at completion. The one markup effect that changes behaviour, the slider's track being detached by the completion message, is kept as a track of zero travel.
- Puzzle drag (`bindPuzzleEvents`) works on floating-point rectangles with `Math.sqrt`. It is not modelled; it accepts a drop closer than 30 px to the slot.
- The slider's progress-bar percentage is presentational float division.
- `setTimeout` delays are single atomic steps: the 1 s challenge start, the 1.5 s click cooldown (`ClickChallenge.Cooldown`), the 0.5 s puzzle delay and the 3 s error dismissal. Interleavings during the `await` inside `completeVerification` are not modelled.
- `Math.random`, `Date.now` and `navigator.userAgent` are parameters. The random number is the fraction `num / den` for the challenge kind, and its text for the session id.
- The client-side `verifyToken` (`fetch`), the `apiBase` host switch, the `window` exports and `console` logging are I/O and globals.
- The `onExpired` option is never called by the core and is not modelled. `onSuccess` and `onError` are kept as values: a function is `Fn`, and what it does when called is not modelled.
- Sessions.CompleteVerification: a function `onSuccess` is assumed to return normally. One that throws would, like a non-function value, send the error to `handleError` after `solved` is set; the model reports `Delivered` for it.
- Sessions.HandleError: a truthy `onError` that is not a function counts as called. The `TypeError` that call throws out of the `catch` is not modelled.
- `seal` is a deterministic function. `CryptoJS.AES.encrypt` with a passphrase draws a fresh random salt on every call, so the program can give different tokens for equal payloads. No property here depends on tokens for equal payloads being equal.
- `render` with `options === null`, inherited option properties, and options other than siteKey, theme, size, onSuccess and onError are not modelled.
- `reset`'s re-rendering of the widget is not modelled. A widget without its challenge container (which would make `reset` or `completeVerification` throw part-way) is not modelled.
- `webpack.config.js` is build configuration with no behaviour.
- Js.ToNumber: only plain decimal-digit strings convert. JavaScript also accepts surrounding whitespace, signs, fractions, exponents, hex and 'Infinity'; the model treats those strings as NaN.
- Js.Value: numbers are integers, so fractional JSON numbers are not represented. Arrays are `Obj` and coerce to NaN, whereas JavaScript coerces `[5]` to 5. An `Obj` has no contents, so a function nested inside an object payload field is not dropped by `JsonRoundTrip`.
- Verifier.VerifyToken: the token passed to `open` may be any JSON value, as in the source; how the cipher treats non-string input is left to the opaque `open`.
- SliderChallenge.MouseMove: the threshold `x >= maxX * 0.95` is stated as `20x >= 19 maxX` over integer pixels. This is exact for integer positions and widths of realistic size.
- SliderChallenge.ReplayDrag: the live track widths are taken as fixed for the whole drag until the first completion (a resize mid-drag is not modelled). From the next move on, the track is detached and measures zero travel. A widget already gone from the page is a live track of zero travel from the start.

=== FILE: base36.dfy ===
/**
 * `Number.prototype.toString(36)` on a non-negative integer: the digits
 * 0-9 then a-z, most significant first, no leading zero. `Decode` is its
 * inverse on digit strings.
 */
module Base36 {

  predicate IsDigit(c: char)
  {
    '0' <= c <= '9' || 'a' <= c <= 'z'
  }

  predicate IsDigits(s: string)
  {
    forall i :: 0 <= i < |s| ==> IsDigit(s[i])
  }

  function DigitValue(c: char): (d: nat)
    requires IsDigit(c)
    ensures d < 36
  {
    if c <= '9' then c as int - '0' as int else c as int - 'a' as int + 10
  }

  function DigitChar(d: nat): (c: char)
    requires d < 36
    ensures IsDigit(c)
    ensures DigitValue(c) == d
  {
    if d < 10 then ('0' as int + d) as char else ('a' as int + d - 10) as char
  }

  /** The base-36 text of `n`. */
  function Encode(n: nat): (s: string)
    ensures |s| >= 1
    ensures IsDigits(s)
    ensures n > 0 ==> s[0] != '0'
    decreases n
  {
    if n < 36 then [DigitChar(n)] else Encode(n / 36) + [DigitChar(n % 36)]
  }

  /** The number a base-36 digit string denotes. */
  function Decode(s: string): nat
    requires IsDigits(s)
  {
    if s == [] then 0 else 36 * Decode(s[..|s| - 1]) + DigitValue(s[|s| - 1])
  }

  /** Encoding loses nothing: the text of `n` reads back as `n`. */
  lemma {:induction false} DecodeEncode(n: nat)
    ensures Decode(Encode(n)) == n
    decreases n
  {
    var s := Encode(n);
    if n < 36 {
      assert s[..|s| - 1] == [];
    } else {
      DecodeEncode(n / 36);
      assert s[..|s| - 1] == Encode(n / 36);
    }
  }
}

=== FILE: challenges.dfy ===
/** The three challenge kinds and the random choice among them. */
module Challenges {

  datatype Kind = Slider | Click | Puzzle

  /** The widget's challenge list, in its order. */
  const Kinds: seq<Kind> := [Slider, Click, Puzzle]

  /** The name a kind goes by in configuration objects. */
  function Name(k: Kind): string
  {
    match k
    case Slider => "slider"
    case Click => "click"
    case Puzzle => "puzzle"
  }

  /**
   * `challenges[Math.floor(Math.random() * challenges.length)]`, with the
   * random number given as the fraction `num / den` in [0, 1). The index
   * always lands inside the list, and draws in the k-th third pick the
   * k-th kind.
   */
  function Choose(num: nat, den: nat): (k: Kind)
    requires num < den
    ensures 3 * num < den ==> k == Slider
    ensures den <= 3 * num < 2 * den ==> k == Click
    ensures 2 * den <= 3 * num ==> k == Puzzle
  {
    var i := (num * |Kinds|) / den;
    assert i < |Kinds| by {
      assert num * |Kinds| < den * |Kinds|;
    }
    Kinds[i]
  }

  /** Every kind can be drawn. */
  lemma EveryKindReachable(k: Kind)
    ensures exists num: nat, den: nat :: num < den && Choose(num, den) == k
  {
    match k
    case Slider => assert Choose(0, 3) == Slider;
    case Click => assert Choose(1, 3) == Click;
    case Puzzle => assert Choose(2, 3) == Puzzle;
  }
}

=== FILE: click_challenge.dfy ===
/**
 * The click challenge: a grid of eight images, a toggled selection kept in
 * insertion order (a JavaScript `Set`), and a verify button that accepts
 * only when the selection and the target list hold the same images.
 */
module ClickChallenge {

  const Images: seq<string> := ["🚗", "🚲", "🚌", "✈️", "🚢", "🚁", "🚂", "🏍️"]

  /** The images the user is asked to click. */
  const Targets: seq<string> := ["🚗", "🚌", "🚂"]

  /** The selection, oldest first, and whether the verify button is disabled. */
  datatype ClickState = ClickState(selected: seq<string>, verifyDisabled: bool)

  /** Freshly rendered: nothing selected, button disabled. */
  const Initial: ClickState := ClickState([], true)

  predicate NoDuplicates(s: seq<string>)
  {
    forall i, j :: 0 <= i < j < |s| ==> s[i] != s[j]
  }

  function Elems(s: seq<string>): set<string>
  {
    set x | x in s
  }

  /** `s` with every copy of `x` dropped, the rest in order (`Set.delete`). */
  function Without(s: seq<string>, x: string): (r: seq<string>)
    ensures forall y :: y in r <==> y in s && y != x
    ensures NoDuplicates(s) ==> NoDuplicates(r)
  {
    if s == [] then []
    else if s[0] == x then Without(s[1..], x)
    else
      var rest := Without(s[1..], x);
      assert NoDuplicates(s) ==> NoDuplicates(s[1..]) && s[0] !in rest;
      [s[0]] + rest
  }

  /** Clicking one image: it leaves the selection if it was in it and joins
      it at the end otherwise; the button is disabled exactly when the
      selection is left empty. */
  function Toggle(st: ClickState, image: string): (r: ClickState)
    ensures image in r.selected <==> image !in st.selected
    ensures forall y :: y != image ==> (y in r.selected <==> y in st.selected)
    ensures NoDuplicates(st.selected) ==> NoDuplicates(r.selected)
    ensures r.verifyDisabled <==> r.selected == []
  {
    var selected := if image in st.selected then Without(st.selected, image) else st.selected + [image];
    ClickState(selected, |selected| == 0)
  }

  /** `xs.every(x => ys.includes(x))`. */
  function AllIn(xs: seq<string>, ys: seq<string>): bool
  {
    xs == [] || (xs[0] in ys && AllIn(xs[1..], ys))
  }

  /** The `every`/`includes` scan is set inclusion. */
  lemma {:induction false} AllInIsInclusion(xs: seq<string>, ys: seq<string>)
    ensures AllIn(xs, ys) <==> Elems(xs) <= Elems(ys)
  {
    if xs != [] {
      AllInIsInclusion(xs[1..], ys);
      assert Elems(xs) == {xs[0]} + Elems(xs[1..]) by {
        assert forall x :: x in xs <==> x == xs[0] || x in xs[1..];
      }
    }
  }

  /** The button's test: every target selected and every selection a target. */
  function IsCorrect(selected: seq<string>, targets: seq<string>): bool
  {
    AllIn(targets, selected) && AllIn(selected, targets)
  }

  /** The test accepts exactly the selections equal to the targets as sets:
      order and repetition do not matter. */
  lemma SameSetIsCorrect(selected: seq<string>, targets: seq<string>)
    ensures IsCorrect(selected, targets) <==> Elems(selected) == Elems(targets)
  {
    AllInIsInclusion(targets, selected);
    AllInIsInclusion(selected, targets);
  }

  datatype Submission = Ignored | Solved | Mismatch

  /** Pressing the verify button. A disabled button fires nothing; otherwise
      the challenge is solved exactly when the selected images are the
      targets. A mismatch leaves the selection in place until the cooldown. */
  function Submit(st: ClickState): (r: Submission)
    ensures st.verifyDisabled <==> r == Ignored
    ensures r == Solved <==> !st.verifyDisabled && Elems(st.selected) == Elems(Targets)
  {
    SameSetIsCorrect(st.selected, Targets);
    if st.verifyDisabled then Ignored
    else if IsCorrect(st.selected, Targets) then Solved
    else Mismatch
  }

  /** The cooldown after a mismatch: selection cleared, button disabled. */
  function Cooldown(st: ClickState): (r: ClickState)
    ensures r.selected == [] && r.verifyDisabled
    ensures Submit(r) == Ignored
  {
    ClickState([], true)
  }

  /** What every reachable state satisfies: no image twice, only grid images,
      and the button disabled exactly when nothing is selected. */
  predicate Valid(st: ClickState)
  {
    && NoDuplicates(st.selected)
    && (forall x :: x in st.selected ==> x in Images)
    && (st.verifyDisabled <==> st.selected == [])
  }

  /** The initial state is valid, and clicking grid images and waiting out
      the cooldown keep it so. */
  lemma ValidIsInvariant(st: ClickState, image: string)
    requires Valid(st)
    requires image in Images
    ensures Valid(Initial)
    ensures Valid(Toggle(st, image))
    ensures Valid(Cooldown(st))
  {
  }

  /** A valid state can never submit an empty selection. */
  lemma NeverSubmitsEmpty(st: ClickState)
    requires Valid(st)
    ensures st.selected == [] ==> Submit(st) == Ignored
  {
  }

  /** Clicking three distinct images that are exactly the targets, in any
      of the six orders, solves the challenge; the targets are all on the
      grid. */
  lemma TargetsSolveInAnyOrder(a: string, b: string, c: string)
    requires a != b && b != c && a != c
    requires {a, b, c} == Elems(Targets)
    ensures forall t :: t in Targets ==> t in Images
    ensures Submit(Toggle(Toggle(Toggle(Initial, a), b), c)) == Solved
  {
    var st := Toggle(Toggle(Toggle(Initial, a), b), c);
    assert c in st.selected;
    assert forall y :: y in st.selected <==> y == a || y == b || y == c;
    assert Elems(st.selected) == {a, b, c};
  }

  /** A selection that is not exactly the targets, a strict subset of them
      included, is a mismatch once the button can be pressed. */
  lemma PartialSelectionMismatches(st: ClickState)
    requires !st.verifyDisabled
    requires Elems(st.selected) != Elems(Targets)
    ensures Submit(st) == Mismatch
  {
  }

  /** For instance, the car and the bus without the train. */
  lemma TwoOfThreeTargetsMismatch()
    ensures Submit(Toggle(Toggle(Initial, "🚗"), "🚌")) == Mismatch
  {
    var a := Toggle(Toggle(Initial, "🚗"), "🚌");
    assert a.selected == ["🚗", "🚌"];
    assert "🚂" in Elems(Targets) && "🚂" !in Elems(a.selected);
  }

  /** Clicking an image twice takes it back out and disables the button again. */
  lemma SecondClickDeselects(image: string)
    ensures Toggle(Toggle(Initial, image), image) == Initial
  {
    var b := Toggle(Initial, image);
    assert b.selected == [image];
    assert Without([image], image) == [];
  }
}

=== FILE: config_endpoint.dfy ===
/**
 * The `/config` serverless handler: a fixed default configuration for GET,
 * an admin-key gate on POST that persists nothing, and 405 for the rest.
 */
module ConfigEndpoint {
  import opened Wrappers
  import opened Js
  import opened Http
  import Challenges
  import Verifier

  const Cors: Headers := Headers("*", "Content-Type", "GET, POST, OPTIONS", "application/json")

  const AdminKey: string := "verigate-admin-key"

  const MissingSiteKey: string := "缺少站点密钥"
  const Forbidden: string := "权限不足"
  const UpdatedMessage: string := "配置更新成功"
  const UnsupportedMethod: string := "不支持的请求方法"
  const InternalError: string := "服务器内部错误"

  /** What the handler reads from the platform's event; `query` is `None`
      when the platform passes no query-string object at all. */
  datatype Event = Event(httpMethod: string, query: Option<map<string, string>>, body: RequestBody)

  /** `event.queryStringParameters?.siteKey`. */
  function QuerySiteKey(query: Option<map<string, string>>): Value
  {
    match query
    case None => Undefined
    case Some(q) => if "siteKey" in q then Str(q["siteKey"]) else Undefined
  }

  /** The configuration every site gets: it echoes the site key and is
      otherwise the same for all sites. Its timeout is the verifier's token
      lifetime and its challenge list names the widget's kinds, in order. */
  function DefaultConfig(siteKey: string): (c: SiteConfig)
    ensures c.siteKey == siteKey
    ensures c.timeout == Verifier.MaxAge
    ensures |c.challenges| == |Challenges.Kinds|
    ensures forall i :: 0 <= i < |c.challenges| ==> c.challenges[i] == Challenges.Name(Challenges.Kinds[i])
  {
    SiteConfig(
      siteKey := siteKey,
      theme := "light",
      size := "normal",
      challenges := ["slider", "click", "puzzle"],
      difficulty := "medium",
      timeout := 300000,
      allowedDomains := ["*"],
      rateLimit := RateLimit(100, 3600000))
  }

  /** Sites differ in nothing but the echoed key. */
  lemma SameDefaultsForEverySite(a: string, b: string)
    ensures DefaultConfig(a).(siteKey := b) == DefaultConfig(b)
  {
  }

  /**
   * Answer one request. Preflight gets an empty 200; GET without a site key
   * is a 400 and with one a 200 carrying `DefaultConfig`; POST with an
   * unreadable body is a 500, with any admin key other than the literal one
   * a 403, and otherwise a 200 that changes nothing; anything else is a 405.
   */
  function Handle(event: Event): (r: Response)
    ensures r.headers == Cors
    ensures r.statusCode in {200, 400, 403, 405, 500}
    ensures event.httpMethod == "OPTIONS" ==> r.statusCode == 200 && r.body == Empty
    ensures event.httpMethod !in {"OPTIONS", "GET", "POST"} ==>
      r.statusCode == 405 && r.body == Failure(UnsupportedMethod)
    ensures event.httpMethod == "GET" ==>
      match QuerySiteKey(event.query)
      case Str(key) =>
        if key == "" then r.statusCode == 400 && r.body == Failure(MissingSiteKey)
        else r.statusCode == 200 && r.body == ConfigFound(DefaultConfig(key))
      case _ => r.statusCode == 400 && r.body == Failure(MissingSiteKey)
    ensures event.httpMethod == "POST" && event.body.Unparsable? ==>
      r.statusCode == 500 && r.body == Failure(InternalError)
    ensures event.httpMethod == "POST" && event.body.Parsed? ==>
      if StrictEquals(Field(event.body, "adminKey"), Str(AdminKey))
      then r.statusCode == 200 && r.body == Updated(UpdatedMessage)
      else r.statusCode == 403 && r.body == Failure(Forbidden)
  {
    if event.httpMethod == "OPTIONS" then
      Response(200, Cors, Empty)
    else if event.httpMethod == "GET" then
      var siteKey := QuerySiteKey(event.query);
      if !Truthy(siteKey) then Response(400, Cors, Failure(MissingSiteKey))
      else Response(200, Cors, ConfigFound(DefaultConfig(siteKey.s)))
    else if event.httpMethod == "POST" then
      match event.body
      case Unparsable => Response(500, Cors, Failure(InternalError))
      case Parsed(_) =>
        if !StrictEquals(Field(event.body, "adminKey"), Str(AdminKey)) then
          Response(403, Cors, Failure(Forbidden))
        else
          Response(200, Cors, Updated(UpdatedMessage))
    else
      Response(405, Cors, Failure(UnsupportedMethod))
  }

  /** Nothing a request carries beyond its site key, and no earlier request
      (an accepted POST included), affects what a GET returns: two GETs with
      the same site key get the same answer. */
  lemma GetDependsOnlyOnSiteKey(e1: Event, e2: Event)
    requires e1.httpMethod == "GET" && e2.httpMethod == "GET"
    requires QuerySiteKey(e1.query) == QuerySiteKey(e2.query)
    ensures Handle(e1) == Handle(e2)
  {
  }

  /** The admin gate: a POST body without the exact admin key string is
      refused, whatever else it holds. */
  lemma AdminGate(event: Event)
    requires event.httpMethod == "POST" && event.body.Parsed?
    ensures Handle(event).statusCode == 200 <==> Field(event.body, "adminKey") == Str(AdminKey)
  {
  }
}

=== FILE: http.dfy ===
/** Request and response shapes of the two serverless endpoints. */
module Http {
  import opened Js

  /** A request body after `JSON.parse`. `Unparsable` is a body whose parse
      throws, or whose JSON is `null` so that destructuring it throws. */
  datatype RequestBody = Unparsable | Parsed(fields: map<string, Value>)

  /** Reading one property of a parsed body: a missing key reads as undefined. */
  function Field(body: RequestBody, name: string): Value
    requires body.Parsed?
  {
    if name in body.fields then body.fields[name] else Undefined
  }

  /** The CORS and content-type headers every response of an endpoint carries. */
  datatype Headers = Headers(
    allowOrigin: string,
    allowHeaders: string,
    allowMethods: string,
    contentType: string)

  datatype RateLimit = RateLimit(requests: int, window: int)

  /** The per-site configuration object the config endpoint hands out. */
  datatype SiteConfig = SiteConfig(
    siteKey: string,
    theme: string,
    size: string,
    challenges: seq<string>,
    difficulty: string,
    timeout: int,
    allowedDomains: seq<string>,
    rateLimit: RateLimit)

  /** The JSON bodies the endpoints send back. */
  datatype ResponseBody =
    | Empty                                       // ''
    | Failure(error: string)                      // {success:false, error}
    | Verified(message: string, sessionId: Value, timestamp: Value, challenge: Value)
    | ConfigFound(config: SiteConfig)             // {success:true, config}
    | Updated(message: string)                    // {success:true, message}

  datatype Response = Response(statusCode: int, headers: Headers, body: ResponseBody)
}

=== FILE: js.dfy ===
/**
 * The JavaScript values the core inspects, after `JSON.parse` or as passed
 * in by the embedding page, with the three JavaScript operations the source
 * applies to them: truthiness (`!x`, `x || d`), strict equality (`===`) and
 * numeric coercion (`a - b`).
 */
module Js {
  import opened Wrappers

  /** `Obj` is any object or array and `Fn` any function, such as a callback
      option. Neither has an identity of its own, so neither is ever strictly
      equal to anything: the values the core compares come from `JSON.parse`,
      which makes a fresh object each time and never makes a function. */
  datatype Value =
    | Undefined
    | Null
    | Bool(b: bool)
    | Num(n: int)
    | Str(s: string)
    | Obj
    | Fn

  /** ToBoolean: undefined, null, false, 0 and "" are falsy, everything else truthy. */
  predicate Truthy(v: Value)
  {
    match v
    case Undefined => false
    case Null => false
    case Bool(b) => b
    case Num(n) => n != 0
    case Str(s) => s != ""
    case Obj => true
    case Fn => true
  }

  /** The `===` operator. */
  predicate StrictEquals(a: Value, b: Value)
  {
    !a.Obj? && !a.Fn? && a == b
  }

  predicate IsDecimal(s: string)
  {
    |s| > 0 && forall i :: 0 <= i < |s| ==> '0' <= s[i] <= '9'
  }

  function DecimalValue(s: string): nat
    requires IsDecimal(s) || s == []
  {
    if s == [] then 0
    else 10 * DecimalValue(s[..|s| - 1]) + (s[|s| - 1] as int - '0' as int)
  }

  /** ToNumber, with `None` standing for NaN. */
  function ToNumber(v: Value): (r: Option<int>)
    ensures v.Num? ==> r == Some(v.n)
    ensures v.Undefined? || v.Obj? || v.Fn? ==> r.None?
  {
    match v
    case Undefined => None
    case Null => Some(0)
    case Bool(b) => Some(if b then 1 else 0)
    case Num(n) => Some(n)
    case Str(s) =>
      if s == "" then Some(0)
      else if IsDecimal(s) then Some(DecimalValue(s))
      else None
    case Obj => None
    case Fn => None
  }

  /** A property value after `JSON.stringify` and `JSON.parse`: a function
      is dropped from its object, so it reads back as `undefined`; every
      other value the model tells apart comes back as it was. */
  function JsonRoundTrip(v: Value): (r: Value)
    ensures v.Fn? ==> r.Undefined?
    ensures !v.Fn? ==> r == v
  {
    if v.Fn? then Undefined else v
  }
}

=== FILE: protocol.dfy ===
/**
 * The two halves of the protocol together: a token minted by the widget
 * for a session, presented to the verification endpoint. The only thing
 * assumed of the cipher is that it round-trips under the shared secret.
 */
module Protocol {
  import opened Wrappers
  import opened Js
  import opened Http
  import opened TokenCodec
  import opened Sessions
  import Verifier
  import VerifyEndpoint

  /** The token a completion mints is the one a function `onSuccess`
      receives, and it opens, on the server, to the payload it was minted
      from as JSON carries it: a function-valued site key is dropped and
      reads back as undefined. */
  lemma IssuedTokenOpens(store: Store, id: string, codec: Codec, issuedAt: int, userAgent: string)
    requires RoundTrips(codec)
    requires id in store
    ensures var siteKey := store[id].config.siteKey;
      var token := GenerateToken(codec, id, siteKey, issuedAt, userAgent);
      && (store[id].config.onSuccess.Fn? ==>
            CompleteVerification(store, id, codec, issuedAt, userAgent, true).outcome == Delivered(token))
      && codec.open(Str(token), Secret) ==
           Some(Claims(Str(id), if siteKey.Fn? then Undefined else siteKey, Num(issuedAt), Str(userAgent),
                       Str(CompletedMarker)))
  {
  }

  /** A minted token verifies for the site key its session was rendered
      with, up to five minutes after issue (and at any earlier clock
      reading), provided the id, the site key and the issue time are truthy
      and the site key is a primitive value. */
  lemma IssuedTokenVerifies(store: Store, id: string, codec: Codec, issuedAt: int, userAgent: string, verifiedAt: int)
    requires RoundTrips(codec)
    requires id in store && id != ""
    requires Truthy(store[id].config.siteKey) && !store[id].config.siteKey.Obj? && !store[id].config.siteKey.Fn?
    requires issuedAt != 0
    requires verifiedAt - issuedAt <= Verifier.MaxAge
    ensures var token := GenerateToken(codec, id, store[id].config.siteKey, issuedAt, userAgent);
      Verifier.VerifyToken(codec, Str(token), store[id].config.siteKey, verifiedAt) ==
        Verifier.Accepted(Str(id), Num(issuedAt), Str(CompletedMarker))
  {
    IssuedTokenOpens(store, id, codec, issuedAt, userAgent);
  }

  /** The same token presented for another site key is refused as a site
      mismatch, however fresh it is; if the session's site key is a
      function, the token carries no site key and is refused as malformed
      instead. */
  lemma IssuedTokenBoundToSite(store: Store, id: string, codec: Codec, issuedAt: int, userAgent: string,
                               verifiedAt: int, otherKey: Value)
    requires RoundTrips(codec)
    requires id in store && id != ""
    requires Truthy(store[id].config.siteKey)
    requires issuedAt != 0
    requires otherKey != store[id].config.siteKey
    ensures var token := GenerateToken(codec, id, store[id].config.siteKey, issuedAt, userAgent);
      Verifier.VerifyToken(codec, Str(token), otherKey, verifiedAt) ==
        if store[id].config.siteKey.Fn? then Verifier.Rejected(Verifier.ReasonMalformed)
        else Verifier.Rejected(Verifier.ReasonSiteMismatch)
  {
    IssuedTokenOpens(store, id, codec, issuedAt, userAgent);
  }

  /** More than five minutes after issue the token is refused as expired. */
  lemma IssuedTokenExpires(store: Store, id: string, codec: Codec, issuedAt: int, userAgent: string, verifiedAt: int)
    requires RoundTrips(codec)
    requires id in store && id != ""
    requires Truthy(store[id].config.siteKey) && !store[id].config.siteKey.Obj? && !store[id].config.siteKey.Fn?
    requires issuedAt != 0
    requires verifiedAt - issuedAt > Verifier.MaxAge
    ensures var token := GenerateToken(codec, id, store[id].config.siteKey, issuedAt, userAgent);
      Verifier.VerifyToken(codec, Str(token), store[id].config.siteKey, verifiedAt) ==
        Verifier.Rejected(Verifier.ReasonExpired)
  {
    IssuedTokenOpens(store, id, codec, issuedAt, userAgent);
  }

  /** A widget rendered with an explicitly empty site key (which the spread
      keeps instead of the default) mints tokens the server always refuses
      as malformed. */
  lemma EmptySiteKeyTokensNeverVerify(store: Store, id: string, codec: Codec, issuedAt: int, userAgent: string,
                                      siteKey: Value, verifiedAt: int)
    requires RoundTrips(codec)
    requires id in store && store[id].config.siteKey == Str("")
    ensures var token := GenerateToken(codec, id, store[id].config.siteKey, issuedAt, userAgent);
      Verifier.VerifyToken(codec, Str(token), siteKey, verifiedAt) ==
        Verifier.Rejected(Verifier.ReasonMalformed)
  {
    IssuedTokenOpens(store, id, codec, issuedAt, userAgent);
  }

  /** A widget rendered with a function as its site key keeps it (it is
      truthy), but `JSON.stringify` drops it from the payload, so its tokens
      are refused as malformed whatever site key is presented. */
  lemma FunctionSiteKeyTokensNeverVerify(store: Store, selector: string, options: Options, randomText: string,
                                         renderedAt: nat, codec: Codec, issuedAt: int, userAgent: string,
                                         siteKey: Value, verifiedAt: int)
    requires RoundTrips(codec)
    requires options.siteKey == Some(Fn)
    ensures var r := Render(store, true, selector, options, randomText, renderedAt);
      && r.Ok?
      && var token := GenerateToken(codec, r.value.sessionId, r.value.store[r.value.sessionId].config.siteKey,
                                    issuedAt, userAgent);
      && Verifier.VerifyToken(codec, Str(token), siteKey, verifiedAt) == Verifier.Rejected(Verifier.ReasonMalformed)
  {
    var r := Render(store, true, selector, options, randomText, renderedAt);
    IssuedTokenOpens(r.value.store, r.value.sessionId, codec, issuedAt, userAgent);
  }

  /** The verification request the widget's host sends for a token. */
  function VerifyRequest(token: string, siteKey: Value): VerifyEndpoint.Event
  {
    VerifyEndpoint.Event("POST", Parsed(map["token" := Str(token), "siteKey" := siteKey]))
  }

  /**
   * The whole round: render a widget for a non-empty site key, solve its
   * challenge at a non-zero clock reading, and post the minted token to
   * the endpoint within five minutes: the endpoint answers 200 with the
   * session's id, the issue time and the completion marker. The token is
   * the one `onSuccess` receives when that option is a function or left
   * out.
   */
  lemma RenderSolveVerify(store: Store, selector: string, siteKey: string, theme: Option<Value>, size: Option<Value>,
                          onSuccess: Option<Value>, onError: Option<Value>,
                          randomText: string, renderedAt: nat, codec: Codec, issuedAt: int, userAgent: string,
                          verifiedAt: int)
    requires RoundTrips(codec) && SealsNonEmpty(codec)
    requires siteKey != ""
    requires issuedAt != 0
    requires verifiedAt - issuedAt <= Verifier.MaxAge
    ensures var r := Render(store, true, selector, Options(Some(Str(siteKey)), theme, size, onSuccess, onError), randomText, renderedAt);
      && r.Ok?
      && var c := CompleteVerification(r.value.store, r.value.sessionId, codec, issuedAt, userAgent, true);
      && var token := GenerateToken(codec, r.value.sessionId, Str(siteKey), issuedAt, userAgent);
      && (onSuccess.None? || onSuccess.value.Fn? ==> c.outcome == Delivered(token))
      && c.store[r.value.sessionId].solved
      && VerifyEndpoint.Handle(codec, VerifyRequest(token, Str(siteKey)), verifiedAt) ==
           Response(200, VerifyEndpoint.Cors,
             Verified(VerifyEndpoint.VerifiedMessage, Str(r.value.sessionId), Num(issuedAt), Str(CompletedMarker)))
  {
    var r := Render(store, true, selector, Options(Some(Str(siteKey)), theme, size, onSuccess, onError), randomText, renderedAt);
    var id := r.value.sessionId;
    assert r.value.store[id].config.siteKey == Str(siteKey);
    IssuedTokenVerifies(r.value.store, id, codec, issuedAt, userAgent, verifiedAt);
    var token := GenerateToken(codec, id, Str(siteKey), issuedAt, userAgent);
    var event := VerifyRequest(token, Str(siteKey));
    assert Field(event.body, "token") == Str(token);
    assert token != "";
    assert Field(event.body, "siteKey") == Str(siteKey);
  }

  /** With no site key in the options, the session falls back to "default",
      and its tokens verify for that key. */
  lemma DefaultSiteKeyVerifies(store: Store, selector: string, randomText: string, renderedAt: nat, codec: Codec,
                               issuedAt: int, userAgent: string, verifiedAt: int)
    requires RoundTrips(codec)
    requires issuedAt != 0
    requires verifiedAt - issuedAt <= Verifier.MaxAge
    ensures var r := Render(store, true, selector, NoOptions, randomText, renderedAt);
      && r.Ok?
      && var c := CompleteVerification(r.value.store, r.value.sessionId, codec, issuedAt, userAgent, true);
      && var token := GenerateToken(codec, r.value.sessionId, Str("default"), issuedAt, userAgent);
      && c.outcome == Delivered(token)
      && Verifier.VerifyToken(codec, Str(token), Str("default"), verifiedAt).Accepted?
  {
    var r := Render(store, true, selector, NoOptions, randomText, renderedAt);
    IssuedTokenVerifies(r.value.store, r.value.sessionId, codec, issuedAt, userAgent, verifiedAt);
  }
}

=== FILE: sessions.dfy ===
/**
 * The widget's session map and token issuance: `render` registers a
 * session, `completeVerification` mints a token and marks the session
 * solved, `reset` marks it unsolved again, and every operation on an
 * unknown id does nothing. The clock, `Math.random`, the user agent and
 * the codec are parameters.
 */
module Sessions {
  import opened Wrappers
  import opened Js
  import opened TokenCodec
  import Base36
  import Challenges

  /** The render options the core reads. `None` is a key the caller left
      out; `Some(Undefined)` is a key present with the value undefined. A
      callback the caller passes is an `Fn`. */
  datatype Options = Options(siteKey: Option<Value>, theme: Option<Value>, size: Option<Value>,
                             onSuccess: Option<Value>, onError: Option<Value>)

  /** Rendering with no options at all. */
  const NoOptions: Options := Options(None, None, None, None, None)

  /** `onSuccess` and `onError` are the callbacks, or whatever other value
      the caller put there. */
  datatype Config = Config(siteKey: Value, theme: Value, size: Value, onSuccess: Value, onError: Value)

  datatype Session = Session(config: Config, solved: bool)

  type Store = map<string, Session>

  /** Reading `options.key`. */
  function Read(o: Option<Value>): Value
  {
    match o
    case None => Undefined
    case Some(v) => v
  }

  /** `options.key || fallback`. */
  function OrDefault(v: Value, fallback: Value): Value
  {
    if Truthy(v) then v else fallback
  }

  /** The trailing `...options`: a key the caller gave overrides. */
  function Spread(base: Value, o: Option<Value>): Value
  {
    match o
    case None => base
    case Some(v) => v
  }

  /** The session configuration: each default applies exactly when the
      caller left the key out. A key given with a falsy value (an empty site
      key, say) keeps that value, because the spread comes last. */
  function Configure(options: Options): (c: Config)
    ensures c.siteKey == (if options.siteKey.Some? then options.siteKey.value else Str("default"))
    ensures c.theme == (if options.theme.Some? then options.theme.value else Str("light"))
    ensures c.size == (if options.size.Some? then options.size.value else Str("normal"))
    ensures c.onSuccess == (if options.onSuccess.Some? then options.onSuccess.value else Fn)
    ensures c.onError == (if options.onError.Some? then options.onError.value else Fn)
  {
    Config(
      Spread(OrDefault(Read(options.siteKey), Str("default")), options.siteKey),
      Spread(OrDefault(Read(options.theme), Str("light")), options.theme),
      Spread(OrDefault(Read(options.size), Str("normal")), options.size),
      // `() => {}`, the no-op callback
      Spread(OrDefault(Read(options.onSuccess), Fn), options.onSuccess),
      Spread(OrDefault(Read(options.onError), Fn), options.onError))
  }

  /** `String.prototype.substr(start, length)` for a non-negative start. */
  function Substr(s: string, start: nat, length: nat): (r: string)
    ensures |r| <= length
  {
    if start >= |s| then ""
    else if start + length >= |s| then s[start..]
    else s[start..start + length]
  }

  /**
   * `'vg_' + Math.random().toString(36).substr(2, 9) + Date.now().toString(36)`,
   * with `randomText` the text of the random number. The id starts with
   * "vg_", holds at most nine random characters, and ends with the clock
   * reading in base 36, which reads back as `now`.
   */
  function GenerateSessionId(randomText: string, now: nat): (id: string)
    ensures |id| > 3 && id[..3] == "vg_"
    ensures |Base36.Encode(now)| < |id| <= 12 + |Base36.Encode(now)|
    ensures id[|id| - |Base36.Encode(now)|..] == Base36.Encode(now)
    ensures Base36.Decode(id[|id| - |Base36.Encode(now)|..]) == now
  {
    Base36.DecodeEncode(now);
    var id := "vg_" + Substr(randomText, 2, 9) + Base36.Encode(now);
    assert id[|id| - |Base36.Encode(now)|..] == Base36.Encode(now);
    id
  }

  datatype Rendered = Rendered(store: Store, sessionId: string)

  /**
   * `render`. Without a container it throws and registers nothing.
   * Otherwise it registers an unsolved session under a fresh-format id with
   * the configured options, leaving every other session as it was; an id
   * already in the map (the source does not check) is overwritten.
   */
  function Render(store: Store, containerFound: bool, selector: string, options: Options,
                  randomText: string, now: nat): (r: Result<Rendered>)
    ensures !containerFound <==> r.Err?
    ensures r.Ok? ==>
      var id := r.value.sessionId;
      && |id| > 3 && id[..3] == "vg_"
      && r.value.store.Keys == store.Keys + {id}
      && r.value.store[id] == Session(Configure(options), false)
      && (forall k :: k in store && k != id ==> r.value.store[k] == store[k])
      && (id !in store ==> |r.value.store| == |store| + 1)
  {
    if !containerFound then Err("找不到选择器: " + selector)
    else
      var id := GenerateSessionId(randomText, now);
      var session := Session(Configure(options), false);
      var store' := store[id := session];
      assert store'.Keys == store.Keys + {id};
      assert id !in store ==> |store'| == |store| + 1;
      Ok(Rendered(store', id))
  }

  /** `startChallenge`: on a registered session, pick a kind from the random
      draw `num / den`; on an unknown id, do nothing. The choice is not
      recorded in the session. */
  function StartChallenge(store: Store, id: string, num: nat, den: nat): (r: Option<Challenges.Kind>)
    requires num < den
    ensures r.Some? <==> id in store
    ensures r.Some? ==> r.value == Challenges.Choose(num, den)
    ensures r.Some? && 3 * num < den ==> r.value == Challenges.Slider
    ensures r.Some? && den <= 3 * num < 2 * den ==> r.value == Challenges.Click
    ensures r.Some? && 2 * den <= 3 * num ==> r.value == Challenges.Puzzle
  {
    if id !in store then None else Some(Challenges.Choose(num, den))
  }

  /** The payload a token carries: the session, its site key, the issue
      time, the browser's user agent and the completion marker. */
  function TokenPayload(sessionId: string, siteKey: Value, now: int, userAgent: string): Claims
  {
    Claims(Str(sessionId), siteKey, Num(now), Str(userAgent), Str(CompletedMarker))
  }

  /** `generateToken`: the payload's JSON sealed under the shared secret.
      Under a codec that round-trips, the token opens to that payload, except
      that a function-valued site key is dropped by `JSON.stringify` and
      reads back as undefined. */
  function GenerateToken(codec: Codec, sessionId: string, siteKey: Value, now: int, userAgent: string): (token: string)
    ensures RoundTrips(codec) ==>
      codec.open(Str(token), Secret) ==
        Some(Claims(Str(sessionId), if siteKey.Fn? then Undefined else siteKey, Num(now), Str(userAgent),
                    Str(CompletedMarker)))
  {
    codec.seal(TokenPayload(sessionId, siteKey, now, userAgent), Secret)
  }

  /** What one completion did: nothing (unknown id); a token handed to
      `onSuccess`; a token minted but withheld because `onSuccess` is falsy;
      or a failure after the token was minted, with whether `onError` was
      called. */
  datatype Outcome = NoSession | Delivered(token: string) | Withheld(token: string) | Failed(reported: bool)

  datatype Completion = Completion(store: Store, outcome: Outcome)

  /**
   * `completeVerification`. An unknown id changes nothing. Otherwise a
   * token for the session's site key is minted first, whether or not the
   * session is already solved; then the widget is updated, and only if that
   * succeeds is the session marked solved. When the widget has left the
   * page the update throws, the error goes to `handleError`, and the session
   * is left as it was. After `solved` is set, a function `onSuccess`
   * receives the token, a falsy one is skipped, and any other value throws
   * when called, so the error goes to `handleError` with the session
   * already solved.
   */
  function CompleteVerification(store: Store, id: string, codec: Codec, now: int, userAgent: string,
                                widgetPresent: bool): (r: Completion)
    ensures id !in store ==> r == Completion(store, NoSession)
    ensures id in store && !widgetPresent ==>
      r == Completion(store, Failed(Truthy(store[id].config.onError)))
    ensures id in store && widgetPresent ==>
      && r.store.Keys == store.Keys
      && r.store[id] == store[id].(solved := true)
      && (forall k :: k in store && k != id ==> r.store[k] == store[k])
    ensures id in store && widgetPresent ==>
      var token := GenerateToken(codec, id, store[id].config.siteKey, now, userAgent);
      var onSuccess := store[id].config.onSuccess;
      && (onSuccess.Fn? ==> r.outcome == Delivered(token))
      && (!Truthy(onSuccess) ==> r.outcome == Withheld(token))
      && (Truthy(onSuccess) && !onSuccess.Fn? ==> r.outcome == Failed(Truthy(store[id].config.onError)))
  {
    if id !in store then Completion(store, NoSession)
    else
      var session := store[id];
      var token := GenerateToken(codec, id, session.config.siteKey, now, userAgent);
      if !widgetPresent then Completion(store, Failed(HandleError(store, id)))
      else
        var solved := store[id := session.(solved := true)];
        if !Truthy(session.config.onSuccess) then Completion(solved, Withheld(token))
        else if session.config.onSuccess.Fn? then Completion(solved, Delivered(token))
        else Completion(solved, Failed(HandleError(solved, id)))
  }

  /** `reset`: an unknown id changes nothing; otherwise the session is marked
      unsolved under the same id with the same configuration. */
  function Reset(store: Store, id: string): (r: Store)
    ensures r.Keys == store.Keys
    ensures id !in store ==> r == store
    ensures id in store ==> !r[id].solved && r[id].config == store[id].config
    ensures forall k :: k in store && k != id ==> r[k] == store[k]
  {
    if id !in store then store else store[id := store[id].(solved := false)]
  }

  /** `handleError`: whether the session's error callback gets called. An
      unknown id and a falsy `onError` both mean no call; the map itself is
      never touched. */
  function HandleError(store: Store, id: string): (notified: bool)
    ensures notified ==> id in store
    ensures id in store ==>
      (notified <==> store[id].config.onError !in {Undefined, Null, Bool(false), Num(0), Str("")})
  {
    if id !in store then false
    else
      var session := store[id];
      Truthy(session.config.onError)
  }

  /** A session rendered without an `onError` option gets the no-op default,
      so every failure on it reaches the callback; one rendered with an
      explicitly falsy `onError` never reports. */
  lemma RenderedSessionsReportFailures(store: Store, selector: string, options: Options, randomText: string,
                                       now: nat, codec: Codec, issuedAt: int, userAgent: string)
    ensures var r := Render(store, true, selector, options, randomText, now);
      && r.Ok?
      && var c := CompleteVerification(r.value.store, r.value.sessionId, codec, issuedAt, userAgent, false);
      && c.store == r.value.store
      && (options.onError.None? ==> c.outcome == Failed(true))
      && (options.onError.Some? && !Truthy(options.onError.value) ==> c.outcome == Failed(false))
  {
  }

  /** Reset undoes a completion: completing an unsolved session and then
      resetting it gives back the map as it was before. */
  lemma ResetUndoesCompletion(store: Store, id: string, codec: Codec, now: int, userAgent: string, widgetPresent: bool)
    requires id in store && !store[id].solved
    ensures Reset(CompleteVerification(store, id, codec, now, userAgent, widgetPresent).store, id) == store
  {
    var after := CompleteVerification(store, id, codec, now, userAgent, widgetPresent).store;
    assert Reset(after, id) == store[id := store[id]];
  }

  /** Completion is not guarded by `solved`: on a session that is already
      solved it mints a fresh token for the later clock reading, hands it to
      a function `onSuccess`, and leaves the map as it was. */
  lemma CompletionIsNotGuarded(store: Store, id: string, codec: Codec, now: int, userAgent: string)
    requires id in store && store[id].solved
    ensures store[id].config.onSuccess.Fn? ==>
      CompleteVerification(store, id, codec, now, userAgent, true).outcome ==
        Delivered(GenerateToken(codec, id, store[id].config.siteKey, now, userAgent))
    ensures CompleteVerification(store, id, codec, now, userAgent, true).store == store
  {
  }

  /** Two completions in a row take the same path, since the first keeps the
      session's callbacks; when the clock has moved and the codec
      round-trips, the two minted tokens differ. */
  lemma RepeatedCompletionMintsTwice(store: Store, id: string, codec: Codec, t1: int, t2: int, userAgent: string)
    requires RoundTrips(codec)
    requires id in store && t1 != t2
    ensures var first := CompleteVerification(store, id, codec, t1, userAgent, true);
      var second := CompleteVerification(first.store, id, codec, t2, userAgent, true);
      && (first.outcome.Delivered? <==> store[id].config.onSuccess.Fn?)
      && (first.outcome.Delivered? ==> second.outcome.Delivered?)
      && (first.outcome.Withheld? ==> second.outcome.Withheld?)
      && (first.outcome.Failed? ==> second.outcome == first.outcome)
      && (first.outcome.Delivered? || first.outcome.Withheld? ==> first.outcome.token != second.outcome.token)
  {
    var first := CompleteVerification(store, id, codec, t1, userAgent, true);
    var second := CompleteVerification(first.store, id, codec, t2, userAgent, true);
    var sk := store[id].config.siteKey;
    assert first.store[id].config == store[id].config;
    var token1 := GenerateToken(codec, id, sk, t1, userAgent);
    var token2 := GenerateToken(codec, id, sk, t2, userAgent);
    var p1 := Claims(Str(id), if sk.Fn? then Undefined else sk, Num(t1), Str(userAgent), Str(CompletedMarker));
    var p2 := Claims(Str(id), if sk.Fn? then Undefined else sk, Num(t2), Str(userAgent), Str(CompletedMarker));
    assert codec.open(Str(token1), Secret) == Some(p1);
    assert codec.open(Str(token2), Secret) == Some(p2);
  }

  /** Rendering without an `onSuccess` option installs the no-op function,
      so a completion hands over its token; an explicitly falsy `onSuccess`
      makes it withhold the token, and any other non-function value throws,
      so the error reaches `onError` unless that option is given falsy. Each
      time the session ends solved. */
  lemma SuccessCallbackDecidesDelivery(store: Store, selector: string, options: Options, randomText: string,
                                       now: nat, codec: Codec, issuedAt: int, userAgent: string)
    ensures var r := Render(store, true, selector, options, randomText, now);
      && r.Ok?
      && var id := r.value.sessionId;
      && var c := CompleteVerification(r.value.store, id, codec, issuedAt, userAgent, true);
      && var token := GenerateToken(codec, id, Configure(options).siteKey, issuedAt, userAgent);
      && c.store[id].solved
      && (options.onSuccess.None? ==> c.outcome == Delivered(token))
      && (options.onSuccess.Some? && !Truthy(options.onSuccess.value) ==> c.outcome == Withheld(token))
      && (options.onSuccess.Some? && Truthy(options.onSuccess.value) && !options.onSuccess.value.Fn? ==>
            c.outcome == Failed(options.onError.None? || Truthy(options.onError.value)))
  {
  }

  /** Sessions are independent: completing or resetting one id never
      changes another id's session. */
  lemma SessionsAreIndependent(store: Store, id: string, other: string, codec: Codec, now: int, userAgent: string, widgetPresent: bool)
    requires other in store && other != id
    ensures CompleteVerification(store, id, codec, now, userAgent, widgetPresent).store[other] == store[other]
    ensures Reset(store, id)[other] == store[other]
  {
  }
}

=== FILE: slider_challenge.dfy ===
/**
 * The slider challenge: a thumb dragged along a track. The thumb is clamped
 * to the track, every drag step at or past 95% of the travel reports
 * completion, and a release short of the far end snaps it back to 0.
 * Pixel geometry is read afresh at every event, so it is a parameter. The
 * first completion replaces the markup the slider lives in while the drag's
 * handlers stay bound, so from then on they measure a detached track of
 * zero travel.
 */
module SliderChallenge {

  /** Widths measured at an event; the usable travel is `track - thumb`. */
  datatype Geometry = Geometry(trackWidth: int, thumbWidth: int)
  {
    function MaxX(): int { trackWidth - thumbWidth }
  }

  /** The handler's closure state: dragging flag, grab offset, thumb position. */
  datatype Slider = Slider(dragging: bool, startX: int, currentX: int)

  const Initial: Slider := Slider(false, 0, 0)

  function Min(a: int, b: int): int { if a <= b then a else b }
  function Max(a: int, b: int): int { if a >= b then a else b }

  /** `Math.max(0, Math.min(x, maxX))`: the position on a track of travel
      `maxX`; a track shorter than its thumb pins the thumb at 0. */
  function Clamp(x: int, maxX: int): (r: int)
    ensures maxX >= 0 ==> 0 <= r <= maxX
    ensures maxX < 0 ==> r == 0
    ensures 0 <= x <= maxX ==> r == x
    ensures x < 0 ==> r == 0
    ensures 0 <= maxX <= x ==> r == maxX
  {
    Max(0, Min(x, maxX))
  }

  /** `x >= maxX * 0.95`, over integer pixels. */
  predicate Reached(x: int, maxX: int)
  {
    20 * x >= 19 * maxX
  }

  /** `mousedown` on the thumb: start dragging, remember the grab offset. */
  function MouseDown(s: Slider, clientX: int, offsetLeft: int): (r: Slider)
    ensures r.dragging && r.currentX == s.currentX
    ensures r.startX + offsetLeft == clientX
  {
    Slider(true, clientX - offsetLeft, s.currentX)
  }

  datatype Moved = Moved(slider: Slider, completed: bool)

  /** `mousemove` anywhere on the page. Outside a drag nothing happens;
      during one the thumb follows the pointer inside the track, and the step
      reports completion exactly when the new position is at or past 95% of
      the travel. */
  function MouseMove(s: Slider, clientX: int, g: Geometry): (r: Moved)
    ensures !s.dragging ==> r == Moved(s, false)
    ensures s.dragging ==> r.slider.dragging && r.slider.startX == s.startX
    ensures s.dragging && g.MaxX() >= 0 ==> 0 <= r.slider.currentX <= g.MaxX()
    ensures s.dragging && 0 <= clientX - s.startX <= g.MaxX() ==> r.slider.currentX == clientX - s.startX
    ensures s.dragging ==> (r.completed <==> Reached(r.slider.currentX, g.MaxX()))
  {
    if !s.dragging then Moved(s, false)
    else
      var x := Clamp(clientX - s.startX, g.MaxX());
      Moved(Slider(true, s.startX, x), Reached(x, g.MaxX()))
  }

  /** `mouseup` anywhere on the page: ends a drag; a thumb short of the far
      end goes back to 0, one at the end stays. */
  function MouseUp(s: Slider, g: Geometry): (r: Slider)
    ensures !r.dragging
    ensures !s.dragging ==> r == s
    ensures s.dragging && s.currentX < g.MaxX() ==> r.currentX == 0
    ensures s.dragging && s.currentX >= g.MaxX() ==> r.currentX == s.currentX
  {
    if !s.dragging then s
    else if s.currentX < g.MaxX() then Slider(false, s.startX, 0)
    else Slider(false, s.startX, s.currentX)
  }

  /** What a detached track measures: both widths read 0, so the travel is
      0. A completion that updates the widget replaces the challenge
      container the slider was built in, while the drag's handlers still
      hold its old track and thumb. */
  const Detached: Geometry := Geometry(0, 0)

  /** On a track of zero travel, such as the detached one, a move during a
      drag pins the thumb at 0 and reports completion, wherever the pointer
      is. */
  lemma ZeroTravelMoveCompletes(s: Slider, clientX: int, g: Geometry)
    requires s.dragging && g.MaxX() == 0
    ensures MouseMove(s, clientX, g) == Moved(Slider(true, s.startX, 0), true)
  {
    var x := Clamp(clientX - s.startX, g.MaxX());
    assert x == 0;
  }

  datatype Replay = Replay(slider: Slider, completions: nat)

  /** The `i`-th pointer position of a drag grabbed at `startX` lies at or
      past 95% of the live travel `g`. */
  predicate Hit(moves: seq<int>, startX: int, g: Geometry, i: nat)
    requires i < |moves|
  {
    Reached(Clamp(moves[i] - startX, g.MaxX()), g.MaxX())
  }

  /** The index of the first of the first `n` positions that is at or past
      95% of the live travel, or `n` when none is. */
  function FirstHit(moves: seq<int>, startX: int, g: Geometry, n: nat): (k: nat)
    requires n <= |moves|
    ensures k <= n
    ensures k < n ==> Hit(moves, startX, g, k)
    ensures forall j :: 0 <= j < k ==> !Hit(moves, startX, g, j)
  {
    if n == 0 then 0
    else
      var k := FirstHit(moves, startX, g, n - 1);
      if k < n - 1 || Hit(moves, startX, g, n - 1) then k else n
  }

  /**
   * What the first `n` moves of a drag grabbed in state `s` on live travel
   * `g` leave behind, in closed form: nothing completes before the first
   * position at or past 95% of the live travel, and every move from there
   * on completes, because that first completion detaches the track. The
   * thumb sits at the last position clamped to the live travel while at
   * most one move has completed, and at 0 once a move has run on the
   * detached track.
   */
  function AfterMoves(s: Slider, moves: seq<int>, g: Geometry, n: nat): Replay
    requires n <= |moves|
  {
    var completions := n - FirstHit(moves, s.startX, g, n);
    var x :=
      if completions >= 2 then 0
      else if n == 0 then s.currentX
      else Clamp(moves[n - 1] - s.startX, g.MaxX());
    Replay(Slider(true, s.startX, x), completions)
  }

  /** The track a drag's next move measures: the live one until something
      has completed, the detached one afterwards. */
  function TrackAfter(completions: nat, g: Geometry): (t: Geometry)
    ensures completions == 0 ==> t == g
    ensures completions > 0 ==> t == Detached
  {
    if completions == 0 then g else Detached
  }

  /** One more position extends the first hit: it stays put once found,
      and otherwise the new position is the first hit exactly when it is a
      hit. */
  lemma FirstHitStep(moves: seq<int>, startX: int, g: Geometry, i: nat)
    requires i < |moves|
    ensures var k := FirstHit(moves, startX, g, i);
      FirstHit(moves, startX, g, i + 1) ==
        if k < i then k else if Hit(moves, startX, g, i) then i else i + 1
  {
  }

  /** Once a position has hit, the track is detached: the next move
      completes and pins the thumb at 0. */
  lemma StepAfterHit(s: Slider, moves: seq<int>, g: Geometry, i: nat)
    requires s.dragging && i < |moves|
    requires FirstHit(moves, s.startX, g, i) < i
    ensures var a := AfterMoves(s, moves, g, i);
      AfterMoves(s, moves, g, i + 1) == Replay(Slider(true, s.startX, 0), a.completions + 1)
      && MouseMove(a.slider, moves[i], TrackAfter(a.completions, g)) == Moved(Slider(true, s.startX, 0), true)
  {
    var k := FirstHit(moves, s.startX, g, i);
    var a := AfterMoves(s, moves, g, i);
    assert a == Replay(a.slider, i - k) && a.slider.dragging && a.slider.startX == s.startX;
    FirstHitStep(moves, s.startX, g, i);
    assert AfterMoves(s, moves, g, i + 1) == Replay(Slider(true, s.startX, 0), i + 1 - k);
    var t := TrackAfter(a.completions, g);
    assert t.MaxX() == 0;
    ZeroTravelMoveCompletes(a.slider, moves[i], t);
  }

  /** Before any hit the track is live: the next move follows the pointer
      and completes exactly when its position is a hit. */
  lemma StepBeforeHit(s: Slider, moves: seq<int>, g: Geometry, i: nat)
    requires s.dragging && i < |moves|
    requires FirstHit(moves, s.startX, g, i) == i
    ensures var x := Clamp(moves[i] - s.startX, g.MaxX());
      var h := Hit(moves, s.startX, g, i);
      AfterMoves(s, moves, g, i + 1) == Replay(Slider(true, s.startX, x), if h then 1 else 0)
      && MouseMove(AfterMoves(s, moves, g, i).slider, moves[i], TrackAfter(0, g)) == Moved(Slider(true, s.startX, x), h)
  {
    FirstHitStep(moves, s.startX, g, i);
  }

  /** One more move, on the track the drag measures by then, extends
      `AfterMoves` by one position. */
  lemma AfterMovesStep(s: Slider, moves: seq<int>, g: Geometry, i: nat)
    requires s.dragging && i < |moves|
    ensures var a := AfterMoves(s, moves, g, i);
      var m := MouseMove(a.slider, moves[i], TrackAfter(a.completions, g));
      AfterMoves(s, moves, g, i + 1) == Replay(m.slider, a.completions + if m.completed then 1 else 0)
  {
    if FirstHit(moves, s.startX, g, i) < i {
      StepAfterHit(s, moves, g, i);
    } else {
      StepBeforeHit(s, moves, g, i);
    }
  }

  /**
   * Process a gesture's `mousemove` events one at a time, as the page
   * delivers them, starting on a track of live travel `g`. During a drag
   * the grab offset never changes; nothing completes until a position at or
   * past 95% of the live travel, and from then on, the track being
   * detached, every move completes wherever the pointer is. Outside a drag
   * nothing happens.
   */
  method ReplayDrag(s: Slider, moves: seq<int>, g: Geometry) returns (final: Slider, completions: nat)
    ensures !s.dragging ==> final == s && completions == 0
    ensures s.dragging ==> Replay(final, completions) == AfterMoves(s, moves, g, |moves|)
  {
    final := s;
    completions := 0;
    if !s.dragging {
      return;
    }
    var i := 0;
    while i < |moves|
      invariant 0 <= i <= |moves|
      invariant Replay(final, completions) == AfterMoves(s, moves, g, i)
    {
      AfterMovesStep(s, moves, g, i);
      var m := MouseMove(final, moves[i], TrackAfter(completions, g));
      final := m.slider;
      if m.completed {
        completions := completions + 1;
      }
      i := i + 1;
    }
  }

  /** Counting completions: none while every position is short of 95% of
      the live travel; otherwise the completions are the moves from the
      first position at or past it to the last. */
  lemma AfterMovesCounts(s: Slider, moves: seq<int>, g: Geometry, n: nat)
    requires n <= |moves|
    ensures var c := AfterMoves(s, moves, g, n).completions;
      && c <= n
      && (c == 0 <==> forall j :: 0 <= j < n ==> !Hit(moves, s.startX, g, j))
      && (c > 0 ==>
            && Hit(moves, s.startX, g, n - c)
            && forall j :: 0 <= j < n - c ==> !Hit(moves, s.startX, g, j))
  {
  }

  /** During a drag on a proper track the thumb never leaves it, before or
      after the track is detached. */
  lemma DragStaysOnTrack(s: Slider, moves: seq<int>, g: Geometry, n: nat)
    requires s.dragging && g.MaxX() >= 0 && n <= |moves|
    requires 0 <= s.currentX <= g.MaxX()
    ensures AfterMoves(s, moves, g, n).slider.dragging
    ensures 0 <= AfterMoves(s, moves, g, n).slider.currentX <= g.MaxX()
  {
  }

  /** A drag whose pointer stays below 95% of the travel never completes,
      so the track is never detached and the thumb follows the pointer. */
  lemma ShortDragNeverCompletes(s: Slider, moves: seq<int>, g: Geometry)
    requires g.MaxX() > 0
    requires forall i :: 0 <= i < |moves| ==> !Reached(moves[i] - s.startX, g.MaxX())
    ensures AfterMoves(s, moves, g, |moves|).completions == 0
    ensures moves != [] ==>
      AfterMoves(s, moves, g, |moves|).slider.currentX == Clamp(moves[|moves| - 1] - s.startX, g.MaxX())
  {
    assert forall i :: 0 <= i < |moves| ==> !Hit(moves, s.startX, g, i);
  }

  /** On a track of zero travel, as a detached one measures, every move of
      a drag completes, wherever the pointer is. */
  lemma ZeroTravelCompletesEveryMove(s: Slider, moves: seq<int>, g: Geometry)
    requires g.MaxX() == 0
    ensures AfterMoves(s, moves, g, |moves|).completions == |moves|
  {
    if moves != [] {
      assert Clamp(moves[0] - s.startX, 0) == 0;
      assert Hit(moves, s.startX, g, 0);
    }
  }

  /** Completion is not latched: once a move reaches 95% of the travel,
      that move and every later move of the same drag report completion,
      wherever the pointer goes, until the button is released; from the
      second move on the thumb reads 0. */
  lemma CompletionRepeatsUntilRelease(s: Slider, moves: seq<int>, g: Geometry)
    requires moves != []
    requires Hit(moves, s.startX, g, 0)
    ensures AfterMoves(s, moves, g, |moves|).completions == |moves|
    ensures |moves| >= 2 ==> AfterMoves(s, moves, g, |moves|).slider.currentX == 0
  {
  }

  /** On a 200-pixel travel: a drag to 96% completes; a release at 80%
      reports nothing and snaps back to 0; and a drag to 96% and back to 10%
      completes twice, the second time on the detached track, with the thumb
      at 0. */
  lemma SliderExamples()
    ensures var g := Geometry(240, 40);
      var s := MouseDown(Initial, 20, 0);
      && MouseMove(s, 20 + 192, g).completed
      && !MouseMove(s, 20 + 160, g).completed
      && MouseUp(MouseMove(s, 20 + 160, g).slider, g).currentX == 0
      && AfterMoves(s, [20 + 192, 20 + 20], g, 2) == Replay(Slider(true, 20, 0), 2)
  {
  }
}

=== FILE: token_codec.dfy ===
/**
 * The token codec shared by the widget and the verifier: the JSON text of a
 * payload encrypted with AES under a literal key. The cipher is a foreign
 * library, so the codec is a pair of opaque functions passed in as a value;
 * `RoundTrips` is the one law the rest of the model relies on.
 */
module TokenCodec {
  import opened Wrappers
  import opened Js

  /** The key both the widget and the verifier hard-code. */
  const Secret: string := "verigate-secret"

  /** The marker a token carries once its challenge was passed. */
  const CompletedMarker: string := "completed"

  /** The fields the verifier reads from a decrypted token. A token whose JSON
      is not an object (a number, a string) decodes to all `Undefined`. */
  datatype Claims = Claims(
    sessionId: Value,
    siteKey: Value,
    timestamp: Value,
    userAgent: Value,
    challenge: Value)

  /** `seal(claims, key)` is encrypt-of-JSON; `open(token, key)` is
      decrypt-then-parse, `None` when either step throws (bad ciphertext,
      bad UTF-8, bad JSON, or JSON `null`). */
  datatype Codec = Codec(
    seal: (Claims, string) -> string,
    open: (Value, string) -> Option<Claims>)

  /** The claims as JSON carries them: a function-valued field is left out
      of the text and reads back as `undefined`. */
  function JsonImage(p: Claims): Claims
  {
    Claims(JsonRoundTrip(p.sessionId), JsonRoundTrip(p.siteKey), JsonRoundTrip(p.timestamp),
           JsonRoundTrip(p.userAgent), JsonRoundTrip(p.challenge))
  }

  /** Decrypting under the same key gives back the sealed claims as their
      JSON text carries them. */
  ghost predicate RoundTrips(codec: Codec)
  {
    forall p: Claims, key: string :: codec.open(Str(codec.seal(p, key)), key) == Some(JsonImage(p))
  }

  /** Sealing always produces some text (AES output in the OpenSSL format
      is never empty), so a minted token is truthy. */
  ghost predicate SealsNonEmpty(codec: Codec)
  {
    forall p: Claims, key: string :: codec.seal(p, key) != ""
  }
}

=== FILE: verifier.dfy ===
/**
 * The server's token check: a short-circuiting chain of tests over the
 * decrypted payload, each failure with its own reason.
 */
module Verifier {
  import opened Wrappers
  import opened Js
  import opened TokenCodec

  /** Five minutes, in milliseconds. */
  const MaxAge: int := 5 * 60 * 1000

  const ReasonUnreadable: string := "令牌解析失败"
  const ReasonMalformed: string := "令牌格式无效"
  const ReasonSiteMismatch: string := "站点密钥不匹配"
  const ReasonExpired: string := "令牌已过期"
  const ReasonNotCompleted: string := "挑战未完成"

  datatype Verification =
    | Accepted(sessionId: Value, timestamp: Value, challenge: Value)
    | Rejected(error: string)

  /** The structural test: session id, site key and timestamp all truthy. */
  predicate WellFormed(c: Claims)
  {
    Truthy(c.sessionId) && Truthy(c.siteKey) && Truthy(c.timestamp)
  }

  /** `now - timestamp > MaxAge` in JavaScript arithmetic: a timestamp that
      coerces to NaN gives a NaN age, and `NaN > MaxAge` is false. */
  predicate IsExpired(timestamp: Value, now: int)
  {
    match ToNumber(timestamp)
    case None => false
    case Some(t) => now - t > MaxAge
  }

  /** One test of the chain: whether it passes, and the reason if it does not. */
  datatype Check = Check(passes: bool, reason: string)

  /** The tests applied to a decrypted payload, in the order they are made. */
  function Checks(c: Claims, siteKey: Value, now: int): seq<Check>
  {
    [ Check(WellFormed(c), ReasonMalformed),
      Check(StrictEquals(c.siteKey, siteKey), ReasonSiteMismatch),
      Check(!IsExpired(c.timestamp, now), ReasonExpired),
      Check(StrictEquals(c.challenge, Str(CompletedMarker)), ReasonNotCompleted) ]
  }

  /** The reason of the first failing test, or `None` when all pass. */
  function FirstFailure(cs: seq<Check>): (r: Option<string>)
    ensures r.None? <==> forall i :: 0 <= i < |cs| ==> cs[i].passes
    ensures r.Some? ==>
      exists i :: 0 <= i < |cs| && !cs[i].passes && cs[i].reason == r.value &&
        forall j :: 0 <= j < i ==> cs[j].passes
  {
    if cs == [] then None
    else if !cs[0].passes then Some(cs[0].reason)
    else
      var rest := FirstFailure(cs[1..]);
      assert forall i :: 1 <= i < |cs| ==> cs[i] == cs[1..][i - 1];
      rest
  }

  /** The first failure of a chain of four tests, spelled out. */
  lemma FirstFailureOfFour(a: Check, b: Check, c: Check, d: Check)
    ensures FirstFailure([a, b, c, d]) ==
      if !a.passes then Some(a.reason)
      else if !b.passes then Some(b.reason)
      else if !c.passes then Some(c.reason)
      else if !d.passes then Some(d.reason)
      else None
  {
    assert [d][1..] == [];
    assert FirstFailure([d]) == if !d.passes then Some(d.reason) else None;
    assert [c, d][1..] == [d];
    assert FirstFailure([c, d]) == if !c.passes then Some(c.reason) else FirstFailure([d]);
    assert [b, c, d][1..] == [c, d];
    assert FirstFailure([b, c, d]) == if !b.passes then Some(b.reason) else FirstFailure([c, d]);
    assert [a, b, c, d][1..] == [b, c, d];
  }

  /**
   * Decide a presented token against the requested site key at time `now`.
   * An unreadable token is rejected before anything else; a readable one is
   * accepted exactly when every test of `Checks` passes, and otherwise
   * rejected with the reason of the first test that fails. Acceptance hands
   * back the payload's own session id, timestamp and challenge.
   */
  function VerifyToken(codec: Codec, token: Value, siteKey: Value, now: int): (r: Verification)
    ensures codec.open(token, Secret).None? ==> r == Rejected(ReasonUnreadable)
    ensures codec.open(token, Secret).Some? ==>
      var c := codec.open(token, Secret).value;
      match FirstFailure(Checks(c, siteKey, now))
      case None => r == Accepted(c.sessionId, c.timestamp, c.challenge)
      case Some(reason) => r == Rejected(reason)
  {
    match codec.open(token, Secret)
    case None => Rejected(ReasonUnreadable)
    case Some(c) =>
      var cs := Checks(c, siteKey, now);
      FirstFailureOfFour(cs[0], cs[1], cs[2], cs[3]);
      assert cs == [cs[0], cs[1], cs[2], cs[3]];
      if !Truthy(c.sessionId) || !Truthy(c.siteKey) || !Truthy(c.timestamp) then
        Rejected(ReasonMalformed)
      else if !StrictEquals(c.siteKey, siteKey) then
        Rejected(ReasonSiteMismatch)
      else if IsExpired(c.timestamp, now) then
        Rejected(ReasonExpired)
      else if !StrictEquals(c.challenge, Str(CompletedMarker)) then
        Rejected(ReasonNotCompleted)
      else
        Accepted(c.sessionId, c.timestamp, c.challenge)
  }

  /** Every rejection carries a non-empty reason, and the five reasons are
      pairwise distinct, so a caller can tell them apart. */
  lemma RejectionReasons(codec: Codec, token: Value, siteKey: Value, now: int)
    ensures VerifyToken(codec, token, siteKey, now).Rejected? ==>
      VerifyToken(codec, token, siteKey, now).error in
        {ReasonUnreadable, ReasonMalformed, ReasonSiteMismatch, ReasonExpired, ReasonNotCompleted}
    ensures VerifyToken(codec, token, siteKey, now).Rejected? ==>
      VerifyToken(codec, token, siteKey, now).error != ""
    ensures |{ReasonUnreadable, ReasonMalformed, ReasonSiteMismatch, ReasonExpired, ReasonNotCompleted}| == 5
  {
  }

  /** A payload missing any of the three structural fields, or holding a falsy
      one (a zero timestamp, an empty session id), is rejected as malformed,
      whatever its site key, age or challenge. */
  lemma FalsyFieldIsMalformed(codec: Codec, token: Value, siteKey: Value, now: int)
    requires codec.open(token, Secret).Some?
    requires !WellFormed(codec.open(token, Secret).value)
    ensures VerifyToken(codec, token, siteKey, now) == Rejected(ReasonMalformed)
  {
  }

  /** The site key is compared before the age: a token for another site is
      reported as a mismatch even when it is also expired. */
  lemma SiteMismatchBeforeExpiry(codec: Codec, token: Value, siteKey: Value, now: int)
    requires codec.open(token, Secret).Some?
    requires WellFormed(codec.open(token, Secret).value)
    requires !StrictEquals(codec.open(token, Secret).value.siteKey, siteKey)
    ensures VerifyToken(codec, token, siteKey, now) == Rejected(ReasonSiteMismatch)
  {
  }

  /** With a numeric timestamp, a well-formed token for the right site is
      rejected as expired exactly when its age exceeds five minutes: an age of
      exactly `MaxAge`, and a negative age, pass the expiry test. */
  lemma ExpiryBoundary(codec: Codec, token: Value, siteKey: Value, now: int, t: int)
    requires codec.open(token, Secret).Some?
    requires WellFormed(codec.open(token, Secret).value)
    requires StrictEquals(codec.open(token, Secret).value.siteKey, siteKey)
    requires codec.open(token, Secret).value.timestamp == Num(t)
    ensures VerifyToken(codec, token, siteKey, now) == Rejected(ReasonExpired) <==> now - t > MaxAge
    ensures now - t == MaxAge ==> VerifyToken(codec, token, siteKey, now) != Rejected(ReasonExpired)
    ensures now < t ==> VerifyToken(codec, token, siteKey, now) != Rejected(ReasonExpired)
  {
  }

  /** A timestamp that does not coerce to a number under `Js.ToNumber`
      makes the age NaN, and such a token never expires. */
  lemma NaNAgeNeverExpires(codec: Codec, token: Value, siteKey: Value, now: int)
    requires codec.open(token, Secret).Some?
    requires ToNumber(codec.open(token, Secret).value.timestamp).None?
    ensures VerifyToken(codec, token, siteKey, now) != Rejected(ReasonExpired)
  {
  }

  /** The completion marker is tested last: a token that passes every other
      test but does not say "completed" is rejected for that reason only. */
  lemma NotCompletedIsLast(codec: Codec, token: Value, siteKey: Value, now: int)
    requires codec.open(token, Secret).Some?
    requires WellFormed(codec.open(token, Secret).value)
    requires StrictEquals(codec.open(token, Secret).value.siteKey, siteKey)
    requires !IsExpired(codec.open(token, Secret).value.timestamp, now)
    ensures VerifyToken(codec, token, siteKey, now).Accepted? <==>
      codec.open(token, Secret).value.challenge == Str(CompletedMarker)
    ensures VerifyToken(codec, token, siteKey, now).Rejected? ==>
      VerifyToken(codec, token, siteKey, now).error == ReasonNotCompleted
  {
  }

  /** The verifier keeps no state: the decision depends only on the decoded
      payload, the requested site key and the clock. */
  lemma DecisionDependsOnPayloadOnly(codec: Codec, token1: Value, token2: Value, siteKey: Value, now: int)
    requires codec.open(token1, Secret) == codec.open(token2, Secret)
    ensures VerifyToken(codec, token1, siteKey, now) == VerifyToken(codec, token2, siteKey, now)
  {
  }
}

=== FILE: verify_endpoint.dfy ===
/**
 * The `/verify` serverless handler: method routing, body field checks, and
 * the mapping of the verifier's decision onto a status code and JSON body.
 */
module VerifyEndpoint {
  import opened Js
  import opened Http
  import opened TokenCodec
  import opened Verifier

  const Cors: Headers := Headers("*", "Content-Type", "POST, OPTIONS", "application/json")

  const OnlyPost: string := "只允许POST请求"
  const MissingToken: string := "缺少验证令牌"
  const MissingSiteKey: string := "缺少站点密钥"
  const VerifiedMessage: string := "验证成功"
  const GenericFailure: string := "验证失败"
  const InternalError: string := "服务器内部错误"

  /** What the handler reads from the platform's event. */
  datatype Event = Event(httpMethod: string, body: RequestBody)

  /** `verification.error || '验证失败'`. */
  function FailureMessage(error: string): string
  {
    if error != "" then error else GenericFailure
  }

  /**
   * Answer one request at time `now`. Preflight gets an empty 200, any other
   * method but POST a 405; a POST whose body cannot be read gets a 500; a
   * missing token is reported before a missing site key, both as 400; then
   * the verifier decides, 200 carrying the payload's claims on acceptance
   * and 400 carrying the verifier's own reason on rejection.
   */
  function Handle(codec: Codec, event: Event, now: int): (r: Response)
    ensures r.headers == Cors
    ensures r.statusCode in {200, 400, 405, 500}
    ensures event.httpMethod == "OPTIONS" ==> r.statusCode == 200 && r.body == Empty
    ensures event.httpMethod != "OPTIONS" && event.httpMethod != "POST" ==>
      r.statusCode == 405 && r.body == Failure(OnlyPost)
    ensures event.httpMethod == "POST" ==> (r.statusCode == 500 <==> event.body.Unparsable?)
    ensures event.httpMethod == "POST" && event.body.Unparsable? ==> r.body == Failure(InternalError)
    ensures event.httpMethod == "POST" && event.body.Parsed? ==>
      var token := Field(event.body, "token");
      var siteKey := Field(event.body, "siteKey");
      && (!Truthy(token) ==> r.statusCode == 400 && r.body == Failure(MissingToken))
      && (Truthy(token) && !Truthy(siteKey) ==> r.statusCode == 400 && r.body == Failure(MissingSiteKey))
      && (Truthy(token) && Truthy(siteKey) ==>
            match VerifyToken(codec, token, siteKey, now)
            case Accepted(id, ts, ch) => r.statusCode == 200 && r.body == Verified(VerifiedMessage, id, ts, ch)
            case Rejected(reason) => r.statusCode == 400 && r.body == Failure(reason))
  {
    if event.httpMethod == "OPTIONS" then
      Response(200, Cors, Empty)
    else if event.httpMethod != "POST" then
      Response(405, Cors, Failure(OnlyPost))
    else
      match event.body
      case Unparsable => Response(500, Cors, Failure(InternalError))
      case Parsed(_) =>
        var token := Field(event.body, "token");
        var siteKey := Field(event.body, "siteKey");
        if !Truthy(token) then
          Response(400, Cors, Failure(MissingToken))
        else if !Truthy(siteKey) then
          Response(400, Cors, Failure(MissingSiteKey))
        else
          match VerifyToken(codec, token, siteKey, now)
          case Accepted(id, ts, ch) =>
            Response(200, Cors, Verified(VerifiedMessage, id, ts, ch))
          case Rejected(reason) =>
            RejectionReasons(codec, token, siteKey, now);
            Response(400, Cors, Failure(FailureMessage(reason)))
  }

  /** A 200 from the handler is exactly an acceptance by the verifier of the
      body's token for the body's site key. */
  lemma OkMeansAccepted(codec: Codec, event: Event, now: int)
    ensures Handle(codec, event, now).statusCode == 200 && event.httpMethod != "OPTIONS" <==>
      && event.httpMethod == "POST"
      && event.body.Parsed?
      && Truthy(Field(event.body, "token"))
      && Truthy(Field(event.body, "siteKey"))
      && VerifyToken(codec, Field(event.body, "token"), Field(event.body, "siteKey"), now).Accepted?
  {
  }
}

=== FILE: wrappers.dfy ===
/** Failure-carrying result types shared by the whole model. */
module Wrappers {

  /** A value that may be missing: an absent option key, a failed decode. */
  datatype Option<+T> = None | Some(value: T)

  /** The outcome of an operation that can throw: `Err` carries the message. */
  datatype Result<+T> = Ok(value: T) | Err(message: string)
}
